=== FILE: README.md ===
# Rock am Ring band notifier — a Dafny model

The bot in `main.py` watches the line-up of the Rock am Ring festival and
tells Telegram subscribers which bands were announced or cancelled. Each
subscriber has a snapshot file `bands_<uid>` holding the last line-up they
saw, one band per line. Four commands use these files:

- `start` creates the snapshot;
- `bands` sends the whole line-up;
- `neu` sends what was added since the snapshot;
- `abgesagt` sends what was removed.

An hourly sweep (`sched_new`) walks the files of the working directory.
For every subscriber it finds, it diffs the snapshot against the current
line-up, stores the line-up and sends the new bands.

This project models that logic as pure functions:

- `Text`: the Python string operations the bot relies on, restricted to
  ASCII:
  - `str.strip` and `str.split()`;
  - `str.join` and `str.split(sep)`;
  - universal-newline translation and `readlines()`;
  - per-character replacement.
- `Snapshot`: the snapshot file format.
  - Writing is `Serialize` (`"\n".join`); reading is `Parse` (`readlines` and `strip`).
  - The working directory is a map from file name to content.
  - `ReadSnapshot` and `WriteSnapshot` stand for `get_old` and `write_bands`.
- `Diff`: the comparison in `get_new`, as a `Delta` of added and removed
  names.
- `Links`: the URL slug, the lineup URL without the reachability check,
  the Markdown link, the one-link-per-line message and the command replies.
- `Registry`: how `re.findall(r"bands_(.*)", file)[0]` turns a file
  name into a subscriber id, and when the sweep skips a file.
- `Bot`: the token check, `start`, `get_bands` and `get_new` over the
  directory.
- `Commands`: the `bands`, `neu` and `abgesagt` handlers, including the
  order-free `list(set)`.
- `Scheduler`: one run of `sched_new` as a fold over the directory
  listing. It yields the new directory and the notifications sent.

The scraped line-up is a parameter `current: seq<string>`. So are the URL
a band resolves to (`urlOf`) and the directory listing. The uid is a
string, as the sweep sees it after extracting it from the file name.

Behaviour to be aware of, all proved below:

- `get_new` always rewrites the snapshot through `get_bands`, even when
  nothing changed.
- A band name holding a line break is stored as two lines. It is then
  reported as new again on every later call (`Bot.LineBreakNameReportedAgain`).
- A trailing empty name disappears on the round trip
  (`Snapshot.TrailingEmptyNameLost`). A blank span at the end of the
  line-up page is therefore reported as new again on every later call
  (`Bot.EmptyLastNameReportedAgain`).
- In a sweep that runs to completion, a subscriber with news is never
  missed, whatever the line-up
  (`Scheduler.SweepMissesNoChange`). The other guarantees about
  notifications below hold for a storable line-up: names stripped,
  without line breaks, and the last one non-empty. Nothing in the scraper
  ensures this. Without it one sweep can message a
  subscriber twice, because the files `bands_u` and `xbands_u` both name
  `u` (`Scheduler.LineBreakNameNotifiedTwice`).
- The unanchored pattern means the file `bands_bands_7` names the
  subscriber `bands_7` (`Registry.FirstMatchWins`). The bare file `bands_`
  yields the empty id and is skipped.

## Model

| member | source | states |
|---|---|---|
| Bot.TokenError | main.py:16-18 | a token is refused exactly when it is empty or the placeholder `<YOUR_TOKEN>`, and the refusal carries the token in its message |
| Text.Strip | main.py:55 | the stripped text is empty or starts and ends with a non-whitespace character (ASCII `isspace`) |
| Text.StripIsMiddle | main.py:55 | `strip()` keeps a contiguous middle part of the text and drops only whitespace before and after it |
| Text.StripStripped | main.py:55 | `strip()` leaves an already stripped name alone |
| Text.StripLineTerminator | main.py:55 | stripping a line read back with its `\n` gives the stripped name that was written |
| Text.Words | main.py:77 | `split()` yields only non-empty words without whitespace |
| Text.WordsEmpty | main.py:77 | `split()` yields no word exactly when the text is all whitespace |
| Text.WordsSplitAtSpace | main.py:77 | a whitespace run of any length separates words the same way as one space |
| Text.JoinConcat | main.py:42 | joining two non-empty lists is joining each and putting the separator between them |
| Text.SplitJoin | main.py:98 | splitting a joined text at a separator no part contains gives back the parts |
| Text.TranslateNewlines | main.py:54-55 | text-mode reading leaves no carriage return |
| Text.TranslateNewlinesPlain | main.py:54-55 | text without carriage returns is read unchanged |
| Text.StripEach | main.py:55 | the comprehension yields one stripped line per line read, in order |
| Snapshot.ReadFile | main.py:52-57 | a file that cannot be read (the `OSError` branch, such as a missing file) and an empty file both read as the empty list |
| Snapshot.ParseSerialize | main.py:40-57 | reading back a written list gives the same list, order and duplicates kept, when every name is stripped, has no line break and the last is non-empty |
| Snapshot.TrailingEmptyNameLost | main.py:40-57 | a trailing empty name is written as a final newline and lost on reading |
| Snapshot.ParseTwoLines | main.py:52-57 | a file of two lines reads as those two names |
| Snapshot.ReadSnapshot | main.py:52-57 | a subscriber without a file has the empty snapshot |
| Snapshot.WriteSnapshot | main.py:40-42 | writing creates or overwrites the subscriber's file with the joined list and keeps every other file |
| Snapshot.FileNameInjective | main.py:41 | different subscribers get different snapshot files |
| Snapshot.ReadAfterWrite | main.py:40-57 | a subscriber reads back the storable list written for it |
| Snapshot.WriteKeepsOthers | main.py:40-42 | writing one subscriber's snapshot does not change what another reads |
| Diff.Removed | main.py:62-66 | the loop collects exactly the stored names that the current list lacks |
| Diff.Changes | main.py:59-70 | `new` is exactly the current names missing from the stored list, and `removed` exactly the stored names missing from the current list |
| Diff.ChangesPartition | main.py:62-68 | `removed` is the stored names minus the current ones, `new` lies within the current names, and the two are disjoint |
| Diff.ChangesFromEmpty | main.py:68 | against an empty snapshot every current name is new and nothing is removed |
| Diff.NoChangesIffSameNames | main.py:59-70 | nothing is new or removed exactly when both lists hold the same names, whatever their order and duplicates |
| Diff.ChangesDependOnNamesOnly | main.py:59-70 | reordering or duplicating names in either list does not change the result |
| Diff.ChangesOfDisjointExtension | main.py:59-70 | appending fresh names reports exactly them as new; dropping them reports exactly them as removed |
| Diff.AddedOfOne | main.py:68 | a single current name absent from the snapshot is the whole of `new` |
| Links.LowerAscii | main.py:78 | `lower()` keeps the length and leaves no upper-case ASCII letter |
| Links.Slug | main.py:77-79 | the slug consists only of `[a-z0-9-]` |
| Links.SlugIdempotent | main.py:77-79 | turning a slug into a slug again changes nothing |
| Links.SlugAmpersand | main.py:78 | `&` inside a run without whitespace (`a&b`) becomes `und` |
| Links.SlugWhitespaceRun | main.py:77 | a whitespace run between two non-blank parts becomes a single `-` |
| Links.SlugIgnoresOuterWhitespace | main.py:77 | leading and trailing whitespace leaves no hyphen in the slug |
| Links.SlugCharsFixed | main.py:78-79 | lowering, `&` replacement and filtering keep text already made of slug characters |
| Links.BandUrl | main.py:81 | the unchecked URL is the lineup prefix followed only by slug characters |
| Links.BandUrlOfSlug | main.py:77-81 | a name and its slug have the same URL |
| Links.MarkdownLink | main.py:91-95 | the bare name when the URL is `None` or empty, otherwise `[name](url)` |
| Links.ReadMarkdownLink | main.py:91-95 | a name without brackets is recovered from its link line together with the URL it points to |
| Links.LinkLines | main.py:98 | one rendered link per band, in the given order |
| Links.SendableBandsLines | main.py:97-98 | for names without brackets or line breaks and URLs without line breaks, the message has one line per band, and line i reads back as band i with its URL |
| Links.UncheckedLinks | main.py:76-98 | without the reachability check every band links to its lineup page |
| Links.Reply | main.py:104-107 | an empty list is answered with the command's fallback sentence |
| Links.ReplyReadsBack | main.py:100-123 | for names without brackets or line breaks and URLs without line breaks, a reply with bands reads back as those bands, in order, each with its URL |
| Registry.FindPrefix | main.py:134 | the search finds the leftmost `bands_` at or after the start, or reports there is none |
| Registry.ExtractUid | main.py:134 | there is a match exactly when `bands_` occurs, and the captured id follows an occurrence of it |
| Registry.SubscriberOf | main.py:134-135 | a file names a subscriber exactly when the pattern matches and the captured id is non-empty |
| Registry.ExtractUidOfFileName | main.py:134 | the snapshot file of a uid without line breaks yields that uid |
| Registry.BarePrefixSkipped | main.py:134-135 | the bare `bands_` captures the empty id and is skipped |
| Registry.OtherFilesSkipped | main.py:133-140 | a file without `bands_` names no subscriber: the `IndexError` is swallowed |
| Registry.FirstMatchWins | main.py:134 | the id starts after the first `bands_`, so `bands_bands_u` names `bands_u` |
| Registry.UnanchoredMatch | main.py:134 | the pattern is not anchored, so `xbands_u` names the same subscriber `u` as `bands_u` |
| Bot.Start | main.py:125-127 | `start` adds exactly the subscriber's file, which holds the empty text and reads as the empty list, and every other file is unchanged |
| Bot.GetBandsReadBack | main.py:44-49 | after `get_bands` the subscriber reads back the storable fetched list, others read what they read before, and only that one file is added |
| Bot.GetNew | main.py:59-70 | `new` and `removed` are measured against the stored snapshot, and the snapshot is replaced by the fetched list whatever the outcome |
| Bot.StartThenGetNew | main.py:125-127 | right after `start` every fetched band is new and none removed |
| Bot.GetNewTwice | main.py:44-70 | for a storable line-up (names stripped, without line breaks, last non-empty), a second `get_new` against the same line-up reports nothing and changes no file |
| Bot.LineBreakNameReportedAgain | main.py:40-70 | a name holding a line break is reported as new again on the next call |
| Bot.EmptyLastNameReportedAgain | main.py:40-70 | a line-up ending in an empty name reports that name as new again on the next call |
| Commands.ListOf | main.py:111 | `list(set)` holds every element of the set exactly once |
| Commands.Announcement | main.py:112-115 | the text is the reply for the returned listing of the set, each band once, so an empty set gets the fallback; for names without brackets or line breaks and URLs without line breaks, there is one line per band, each line a band of the set with its URL, and every band is on a line |
| Commands.Bands | main.py:100-107 | `bands` leaves the directory exactly as `get_bands` does (only the subscriber's file is written, and a storable line-up reads back); it says no band was announced yet for an empty line-up, and for names without brackets or line breaks and URLs without line breaks, answers with the line-up line by line |
| Commands.NewBands | main.py:109-115 | `neu` stores the fetched line-up and answers with the reply for the returned listing, each band once, of exactly the new bands, so the fallback when the snapshot already held every band; for names without brackets or line breaks and URLs without line breaks, each line is a new band with its URL and every new band is on a line |
| Commands.RemovedBands | main.py:117-123 | `abgesagt` stores the fetched line-up and answers with the reply for the returned listing, each band once, of exactly the cancelled bands, so the fallback when every stored band is still listed; for names without brackets or line breaks and URLs without line breaks, each line is a cancelled band with its URL and every cancelled band is on a line |
| Scheduler.Subscribers | main.py:132-135 | a uid is a subscriber of the sweep exactly when some listed file yields it |
| Scheduler.Announce | main.py:137-138 | a subscriber is messaged exactly when its `new` set is non-empty |
| Scheduler.SweepStep | main.py:132-138 | a subscriber's file is handled by `get_new` and the rest of the listing continues from the directory it leaves |
| Scheduler.StepFacts | main.py:44-70 | for a storable line-up (names stripped, without line breaks, last non-empty), after `get_new` the subscriber's snapshot holds nothing new, and other snapshots are unchanged |
| Scheduler.SweepSends | main.py:130-140 | every message goes to a listed subscriber and carries a non-empty set of fetched bands |
| Scheduler.SweepWritesSnapshots | main.py:132-136 | after a sweep every listed subscriber's snapshot holds the fetched list, even when nothing was new |
| Scheduler.SweepKeys | main.py:130-140 | a sweep creates the snapshot files of its subscribers and no other file |
| Scheduler.SweepKeepsOthers | main.py:130-140 | a sweep changes no file other than its subscribers' snapshots |
| Scheduler.SweepWrites | main.py:130-140 | the three previous facts together |
| Scheduler.SweepMissesNoChange | main.py:136-138 | for every line-up, each listed subscriber whose snapshot lacked some fetched band is messaged |
| Scheduler.SweepNotifiesChanged | main.py:136-138 | for a storable line-up (names stripped, without line breaks, last non-empty), a sweep messages exactly the subscribers whose snapshot lacked some fetched band |
| Scheduler.SweepReportsChanges | main.py:136-138 | for a storable line-up (names stripped, without line breaks, last non-empty), each message carries exactly the bands its subscriber lacked before the sweep |
| Scheduler.SweepNotifiesOnce | main.py:130-140 | for a storable line-up (names stripped, without line breaks, last non-empty), no subscriber is messaged twice in one sweep, even when several files name it |
| Scheduler.UnchangedStep | main.py:59-70 | for a storable line-up (names stripped, without line breaks, last non-empty), `get_new` on a snapshot that already holds the line-up reports nothing and leaves the directory as it was |
| Scheduler.SweepQuiescent | main.py:130-140 | for a storable line-up (names stripped, without line breaks, last non-empty), when every subscriber's snapshot already holds the line-up, a sweep sends nothing and changes nothing |
| Scheduler.SubscriberHasNoLineBreak | main.py:134 | an id captured by `(.*)` never holds a line break |
| Scheduler.SecondSweepSendsNothing | main.py:130-142 | for a storable line-up (names stripped, without line breaks, last non-empty), a second sweep over the resulting directory, against the same line-up, sends nothing and changes nothing |
| Scheduler.ScenarioStep | main.py:59-70 | a snapshot `a, b` against the line-up `a, g` reports `g` as new and stores `a, g` |
| Scheduler.LineBreakNameNotifiedTwice | main.py:130-140 | with a line-up whose name holds a line break, a sweep over `bands_u` and `xbands_u` messages `u` twice with that name |
| Scheduler.SweepScenario | main.py:130-140 | a sweep over that one subscriber sends one message with `g` alone and leaves the snapshot holding `a, g` |

## Left out

- Scraping the line-up (`get_band_names`, main.py:22-33) is HTTP plus HTML parsing. Its result is the parameter `current`.
- The reachability check in `get_band_url` (main.py:82-86) makes HTTP requests.
  - The `-1` fallback URL and the `None` result come only from that check.
  - The URL a band resolves to is the parameter `urlOf`.
  - `Links.UncheckedUrl` is the `check=False` path.
- Sending messages (`send_message`, `send_bands`, main.py:35-37) is Telegram I/O. The model yields the message text (`Commands`) or the list of notifications (`Scheduler`).
- The `status` handler, the dispatcher, polling and reading `secret.json` (main.py:151-171) are process wiring.
- Re-arming the timer (`schedule`, main.py:142, 145-148) is concurrency. A sweep is modelled once; repeated sweeps are composed in `Scheduler.SecondSweepSendsNothing`.
- The sweep uses one fetched line-up. The code fetches the line-up again for every subscriber inside one sweep, so the lists could differ from file to file if the page changed in between.
- Exceptions other than the `IndexError` of the id extraction are not modelled. These include network errors while fetching the line-up, Telegram errors in `send_bands` (main.py:138), an `OSError` while writing a snapshot (main.py:41-42), and a decoding error while reading one. Any of them escapes `sched_new` before `schedule(rar)` (main.py:142) runs. The rest of the listing is then not swept, and the timer is never re-armed, so no later sweep happens at all. The model only covers sweeps that run to completion.
- Snapshot.ReadFile: `None` stands for every `OSError` that `get_old` catches (main.py:53-57), not only a missing file. An unreadable file, or a directory named `bands_<uid>`, also reads as `[]`, so every fetched band is reported as new to that subscriber. The directory map does not model such entries: every file it holds can be read.
- The order of Python set iteration: the sweep's notifications carry sets. `Commands.ListOf` may return the elements in any order, and the contracts hold for every order.
- `get_removed` (main.py:72-73) has no caller. It is the `removed` half of `Bot.GetNew` turned into a list, as in `Commands.RemovedBands`.
- Text.Strip: its own contract states only that the result is stripped. That the result is the middle part of the input with only whitespace dropped is stated separately, by `Text.StripIsMiddle`.
- Telegram's Markdown is not modelled. The messages are read back with a simplified reader (`Links.ReadLink`) that knows only `[label](target)`. Telegram's legacy Markdown also reads `_`, `*` and backquotes in a band name as formatting marks, so such a name can be shown differently or be rejected.
- Unicode is out of scope. Case folding, Unicode whitespace and encodings are not modelled: `lower()` and `isspace()` are their ASCII parts, and characters beyond ASCII that Python would lower or treat as space are kept as they are.
- The chat id is an integer in the handlers. Here it is the string `str.format` makes of it, which is also what the sweep extracts from the file name.
- Writing uses the POSIX line separator. A platform that writes `\r\n` is covered on reading by universal-newline translation, but is not modelled on writing.

=== FILE: bot.dfy ===
/**
 * The operations of the `RockAmRing` bot that read and write snapshot
 * files. The fetched lineup (`get_band_names`) is the parameter `current`;
 * the working directory is a map from file name to content.
 */
module Bot {
  import opened Wrappers
  import opened Snapshot
  import opened Diff

  const TokenPlaceholder := "<YOUR_TOKEN>"

  /** The constructor's check: an empty token or the placeholder from the
      sample configuration is refused with this message. */
  function TokenError(token: string): (err: Option<string>)
    ensures err.None? <==> token != "" && token != TokenPlaceholder
    ensures err.Some? ==> err.value == "`token` must have a valid value (" + token + " given)."
  {
    if token == "" || token == TokenPlaceholder then
      Some("`token` must have a valid value (" + token + " given).")
    else None
  }

  /** `start`: the subscriber's snapshot becomes the empty list, which
      also makes the subscriber known to the sweep. */
  function Start(dir: Directory, uid: string): (d: Directory)
    ensures d.Keys == dir.Keys + {FileName(uid)}
    ensures d[FileName(uid)] == "" && ReadSnapshot(d, uid) == []
    ensures forall k :: k in dir && k != FileName(uid) ==> d[k] == dir[k]
  {
    WriteSnapshot(dir, uid, [])
  }

  /** `get_bands`: the fetched list is returned and stored as the
      subscriber's snapshot. */
  function GetBands(dir: Directory, uid: string, current: seq<string>): Directory {
    WriteSnapshot(dir, uid, current)
  }

  /** After `get_bands` the subscriber reads back the fetched list when it
      is storable, and every other subscriber reads what it read before. */
  lemma GetBandsReadBack(dir: Directory, uid: string, current: seq<string>)
    ensures Storable(current) ==> ReadSnapshot(GetBands(dir, uid, current), uid) == current
    ensures forall other :: other != uid ==>
      ReadSnapshot(GetBands(dir, uid, current), other) == ReadSnapshot(dir, other)
    ensures GetBands(dir, uid, current).Keys == dir.Keys + {FileName(uid)}
  {
    var d := GetBands(dir, uid, current);
    forall other | other != uid ensures ReadSnapshot(d, other) == ReadSnapshot(dir, other) {
      WriteKeepsOthers(dir, uid, current, other);
    }
    if Storable(current) {
      ReadAfterWrite(dir, uid, current);
    }
  }

  datatype Refresh = Refresh(delta: Delta, dir: Directory)

  /** `get_new`: compares the stored list with the fetched one, and (through
      `get_bands`) replaces the stored list by the fetched one whatever the
      outcome. */
  function GetNew(dir: Directory, uid: string, current: seq<string>): (r: Refresh)
    ensures forall b :: b in r.delta.added <==> b in current && b !in ReadSnapshot(dir, uid)
    ensures forall b :: b in r.delta.removed <==> b in ReadSnapshot(dir, uid) && b !in current
    ensures r.dir == GetBands(dir, uid, current)
  {
    var stored := ReadSnapshot(dir, uid);
    Refresh(Changes(stored, current), GetBands(dir, uid, current))
  }

  /** `start` followed by `neu`: every fetched band is new and none is
      removed. */
  lemma StartThenGetNew(dir: Directory, uid: string, current: seq<string>)
    ensures GetNew(Start(dir, uid), uid, current).delta == Delta(Elems(current), {})
  {
    ChangesFromEmpty(current);
  }

  /** Asking twice against an unchanged lineup: the second call reports
      nothing and leaves the directory as the first call left it. */
  lemma GetNewTwice(dir: Directory, uid: string, current: seq<string>)
    requires Storable(current)
    ensures var first := GetNew(dir, uid, current);
      && GetNew(first.dir, uid, current).delta == Delta({}, {})
      && GetNew(first.dir, uid, current).dir == first.dir
  {
    var first := GetNew(dir, uid, current);
    GetBandsReadBack(dir, uid, current);
    NoChangesIffSameNames(current, current);
    assert first.dir[FileName(uid) := Serialize(current)] == first.dir;
  }

  /** A name holding a line break is stored as two lines, so it is
      reported as new again on every later call. */
  lemma LineBreakNameReportedAgain(dir: Directory, uid: string, x: string, y: string)
    requires StorableName(x) && StorableName(y) && y != ""
    ensures var name := x + "\n" + y;
      var first := GetNew(dir, uid, [name]);
      GetNew(first.dir, uid, [name]).delta.added == {name}
  {
    var name := x + "\n" + y;
    var d1 := GetNew(dir, uid, [name]).dir;
    assert d1[FileName(uid)] == name by {
      assert Serialize([name]) == name;
    }
    ParseTwoLines(x, y);
    assert ReadSnapshot(d1, uid) == [x, y];
    assert name != x && name != y by {
      assert |name| > |x| && |name| > |y|;
    }
    AddedOfOne(ReadSnapshot(d1, uid), name);
  }

  /** A trailing empty name (a blank span on the lineup page) is written
      as a final newline and lost on reading, so it is reported as new
      again on every later call. */
  lemma EmptyLastNameReportedAgain(dir: Directory, uid: string, a: string)
    requires StorableName(a) && a != ""
    ensures var first := GetNew(dir, uid, [a, ""]);
      GetNew(first.dir, uid, [a, ""]).delta.added == {""}
  {
    var d1 := GetNew(dir, uid, [a, ""]).dir;
    assert [a] + [""] == [a, ""];
    TrailingEmptyNameLost([a]);
    assert ReadSnapshot(d1, uid) == [a];
    var added := GetNew(d1, uid, [a, ""]).delta.added;
    assert "" in added;
    assert forall b :: b in added ==> b == "";
  }
}

=== FILE: commands.dfy ===
/**
 * The chat commands `bands`, `neu` and `abgesagt`: each refreshes the
 * subscriber's snapshot and answers with a list of linked bands, or with
 * the command's fallback sentence when the list is empty. `neu` and
 * `abgesagt` turn a set into a list, in an order Python leaves open.
 */
module Commands {
  import opened Wrappers
  import opened Text
  import opened Snapshot
  import opened Diff
  import opened Links
  import opened Bot

  /** The directory after the command and the text sent back. */
  datatype Answer = Answer(dir: Directory, text: string)

  /** `order` lists every element of `s` exactly once. */
  predicate ListingOf(order: seq<string>, s: set<string>) {
    Elems(order) == s && |order| == |s|
  }

  /** `list(s)`: every element of the set once, in some order. */
  method ListOf(s: set<string>) returns (r: seq<string>)
    ensures Elems(r) == s
    ensures |r| == |s|
  {
    r := [];
    var left := s;
    while left != {}
      invariant Elems(r) + left == s
      invariant Elems(r) !! left
      invariant |r| + |left| == |s|
      decreases |left|
    {
      var x :| x in left;
      assert Elems(r + [x]) == Elems(r) + {x};
      r := r + [x];
      left := left - {x};
    }
  }

  /** The message for a set of bands: the reply for `order`, the listing
      of the set that `list` produced, so the fallback when the set is
      empty. When every band can be
      shown on one line, there is one line per band, each reading back as
      a band of the set with its URL, and every band of the set is on some
      line. */
  method Announcement(bands: set<string>, fallback: string, urlOf: string -> Option<string>)
    returns (text: string, order: seq<string>)
    ensures ListingOf(order, bands) && text == Reply(order, fallback, urlOf)
    ensures bands == {} ==> text == fallback
    ensures bands != {} && (forall b :: b in bands ==> Displayable(b, urlOf(b))) ==>
      && |Split(text, '\n')| == |bands|
      && (forall i :: 0 <= i < |bands| ==>
            ReadLink(Split(text, '\n')[i]).0 in bands
            && ReadLink(Split(text, '\n')[i]).1 == Target(urlOf(ReadLink(Split(text, '\n')[i]).0)))
      && (forall b :: b in bands ==> exists i :: 0 <= i < |bands| && ReadLink(Split(text, '\n')[i]).0 == b)
  {
    order := ListOf(bands);
    text := Reply(order, fallback, urlOf);
    if bands != {} && (forall b :: b in bands ==> Displayable(b, urlOf(b))) {
      assert order != [];
      forall i | 0 <= i < |order| ensures Displayable(order[i], urlOf(order[i])) {
        assert order[i] in Elems(order);
      }
      ReplyReadsBack(order, fallback, urlOf);
      forall b | b in bands ensures exists i :: 0 <= i < |bands| && ReadLink(Split(text, '\n')[i]).0 == b {
        assert b in Elems(order);
        var i :| 0 <= i < |order| && order[i] == b;
        assert ReadLink(Split(text, '\n')[i]).0 == b;
      }
    }
  }

  /** `bands`: stores the fetched lineup and sends it, or says that no band
      has been announced yet. */
  function Bands(dir: Directory, uid: string, current: seq<string>, urlOf: string -> Option<string>): (a: Answer)
    ensures current == [] ==> a.text == NoBandsYet
    ensures current != [] && (forall i :: 0 <= i < |current| ==> Displayable(current[i], urlOf(current[i]))) ==>
      && |Split(a.text, '\n')| == |current|
      && forall i :: 0 <= i < |current| ==> ReadLink(Split(a.text, '\n')[i]) == (current[i], Target(urlOf(current[i])))
    ensures Storable(current) ==> ReadSnapshot(a.dir, uid) == current
    ensures a.dir == GetBands(dir, uid, current)
  {
    GetBandsReadBack(dir, uid, current);
    ReplyReadsBack(current, NoBandsYet, urlOf);
    Answer(GetBands(dir, uid, current), Reply(current, NoBandsYet, urlOf))
  }

  /** `neu`: the bands fetched now that the snapshot lacked, or the
      sentence that nothing new was announced. */
  method NewBands(dir: Directory, uid: string, current: seq<string>, urlOf: string -> Option<string>)
    returns (a: Answer, order: seq<string>)
    ensures a.dir == GetBands(dir, uid, current)
    ensures (forall b :: b in current ==> b in ReadSnapshot(dir, uid)) ==> a.text == NoNewBands
    ensures ListingOf(order, Changes(ReadSnapshot(dir, uid), current).added)
    ensures a.text == Reply(order, NoNewBands, urlOf)
    ensures var added := Changes(ReadSnapshot(dir, uid), current).added;
      added != {} && (forall b :: b in added ==> Displayable(b, urlOf(b))) ==>
        && |Split(a.text, '\n')| == |added|
        && (forall i :: 0 <= i < |added| ==>
              ReadLink(Split(a.text, '\n')[i]).0 in added
              && ReadLink(Split(a.text, '\n')[i]).1 == Target(urlOf(ReadLink(Split(a.text, '\n')[i]).0)))
        && (forall b :: b in added ==> exists i :: 0 <= i < |added| && ReadLink(Split(a.text, '\n')[i]).0 == b)
  {
    var r := GetNew(dir, uid, current);
    assert r.delta == Changes(ReadSnapshot(dir, uid), current);
    var text;
    text, order := Announcement(r.delta.added, NoNewBands, urlOf);
    a := Answer(r.dir, text);
  }

  /** `abgesagt`: the bands of the snapshot that the lineup no longer
      lists, or the sentence that no band was cancelled. */
  method RemovedBands(dir: Directory, uid: string, current: seq<string>, urlOf: string -> Option<string>)
    returns (a: Answer, order: seq<string>)
    ensures a.dir == GetBands(dir, uid, current)
    ensures (forall b :: b in ReadSnapshot(dir, uid) ==> b in current) ==> a.text == NoCancelledBands
    ensures ListingOf(order, Changes(ReadSnapshot(dir, uid), current).removed)
    ensures a.text == Reply(order, NoCancelledBands, urlOf)
    ensures var removed := Changes(ReadSnapshot(dir, uid), current).removed;
      removed != {} && (forall b :: b in removed ==> Displayable(b, urlOf(b))) ==>
        && |Split(a.text, '\n')| == |removed|
        && (forall i :: 0 <= i < |removed| ==>
              ReadLink(Split(a.text, '\n')[i]).0 in removed
              && ReadLink(Split(a.text, '\n')[i]).1 == Target(urlOf(ReadLink(Split(a.text, '\n')[i]).0)))
        && (forall b :: b in removed ==> exists i :: 0 <= i < |removed| && ReadLink(Split(a.text, '\n')[i]).0 == b)
  {
    var r := GetNew(dir, uid, current);
    assert r.delta == Changes(ReadSnapshot(dir, uid), current);
    var text;
    text, order := Announcement(r.delta.removed, NoCancelledBands, urlOf);
    a := Answer(r.dir, text);
  }
}

=== FILE: diff.dfy ===
/**
 * The set logic of `get_new`: which current band names are new to a
 * subscriber, and which of the subscriber's stored names are gone.
 */
module Diff {

  /** The names in a list, forgetting order and duplicates (`set(list)`). */
  function Elems(s: seq<string>): set<string> {
    set x | x in s
  }

  datatype Delta = Delta(added: set<string>, removed: set<string>)

  /** The loop over the stored names: each stored name that the current list
      lacks is collected. */
  function Removed(stored: seq<string>, current: seq<string>): (r: set<string>)
    ensures forall b :: b in r <==> b in stored && b !in current
    decreases |stored|
  {
    if stored == [] then {}
    else
      var last := stored[|stored| - 1];
      Removed(stored[..|stored| - 1], current) + (if last in current then {} else {last})
  }

  /** The result of `get_new` for a stored list `stored` and a fetched list
      `current`. */
  function Changes(stored: seq<string>, current: seq<string>): (d: Delta)
    ensures forall b :: b in d.added <==> b in current && b !in stored
    ensures forall b :: b in d.removed <==> b in stored && b !in current
  {
    Delta(Elems(current) - Elems(stored), Removed(stored, current))
  }

  /** What is new is current and was not stored; what is removed was stored
      and is not current; nothing is both. */
  lemma ChangesPartition(stored: seq<string>, current: seq<string>)
    ensures Changes(stored, current).added <= Elems(current) - Elems(stored)
    ensures Changes(stored, current).removed == Elems(stored) - Elems(current)
    ensures Changes(stored, current).added !! Changes(stored, current).removed
  {
  }

  /** Right after `start` the stored list is empty: everything current is
      new and nothing is removed. */
  lemma ChangesFromEmpty(current: seq<string>)
    ensures Changes([], current) == Delta(Elems(current), {})
  {
  }

  /** Both sets are empty exactly when the two lists hold the same names,
      whatever their order and duplicates. */
  lemma {:induction false} NoChangesIffSameNames(stored: seq<string>, current: seq<string>)
    ensures Changes(stored, current) == Delta({}, {}) <==> Elems(stored) == Elems(current)
  {
    var d := Changes(stored, current);
    if Elems(stored) == Elems(current) {
      assert forall b :: b in stored <==> b in Elems(stored);
      assert forall b :: b in current <==> b in Elems(current);
      assert d.added == {} && d.removed == {};
    }
    if d == Delta({}, {}) {
      forall b | b in Elems(stored) ensures b in Elems(current) {
        assert b !in d.removed;
      }
      forall b | b in Elems(current) ensures b in Elems(stored) {
        assert b !in d.added;
      }
    }
  }

  /** Only the names matter: lists with the same names give the same
      result. */
  lemma ChangesDependOnNamesOnly(stored1: seq<string>, stored2: seq<string>, cur1: seq<string>, cur2: seq<string>)
    requires Elems(stored1) == Elems(stored2) && Elems(cur1) == Elems(cur2)
    ensures Changes(stored1, cur1) == Changes(stored2, cur2)
  {
    var d1, d2 := Changes(stored1, cur1), Changes(stored2, cur2);
    forall b ensures b in d1.removed <==> b in d2.removed {
      assert b in stored1 <==> b in Elems(stored1);
      assert b in stored2 <==> b in Elems(stored2);
      assert b in cur1 <==> b in Elems(cur1);
      assert b in cur2 <==> b in Elems(cur2);
    }
  }

  /** Growing a list by names it does not have: the extra names are
      exactly what is new; shrinking it back: exactly what is removed. */
  lemma ChangesOfDisjointExtension(a: seq<string>, b: seq<string>)
    requires Elems(a) !! Elems(b)
    ensures Changes(a, a + b) == Delta(Elems(b), {})
    ensures Changes(a + b, a) == Delta({}, Elems(b))
  {
    var up, down := Changes(a, a + b), Changes(a + b, a);
    forall x ensures x in up.added <==> x in Elems(b) {
      assert x in a + b <==> x in a || x in b;
    }
    forall x ensures x in down.removed <==> x in Elems(b) {
      assert x in a + b <==> x in a || x in b;
    }
  }

  /** A single fetched name the stored list lacks is all that is new. */
  lemma AddedOfOne(stored: seq<string>, name: string)
    requires name !in stored
    ensures Changes(stored, [name]).added == {name}
  {
    var added := Changes(stored, [name]).added;
    assert name in added;
    assert forall b :: b in added ==> b == name;
  }
}

=== FILE: links.dfy ===
/**
 * How a band is shown in a message: `get_band_url` turns the name into a
 * URL slug under the festival's lineup page, `get_telegram_url_markdown`
 * renders a Markdown link, and `get_sendable_bands_string` puts one link per
 * line. Whether a lineup page is reachable is decided by HTTP requests in
 * the bot; here the URL a name resolves to is a parameter.
 */
module Links {
  import opened Wrappers
  import opened Text

  const LineupUrl := "http://www.rock-am-ring.com/lineup/"

  /** Characters the slug keeps: `[a-z0-9-]`. */
  predicate IsSlugChar(c: char) {
    ('a' <= c <= 'z') || ('0' <= c <= '9') || c == '-'
  }

  /** `str.lower()` on an ASCII character. */
  function LowerChar(c: char): (l: char)
    ensures !('A' <= l <= 'Z')
  {
    if 'A' <= c <= 'Z' then (c as int + 32) as char else c
  }

  function LowerAscii(s: string): (r: string)
    ensures |r| == |s|
    ensures forall i :: 0 <= i < |s| ==> r[i] == LowerChar(s[i])
  {
    seq(|s|, i requires 0 <= i < |s| => LowerChar(s[i]))
  }

  /** `.replace("&", "und")`, one character at a time. */
  function ExpandAmp(c: char): string {
    if c == '&' then "und" else [c]
  }

  /** `re.sub("[^a-z0-9-]", "", ...)`, one character at a time. */
  function KeepSlugChar(c: char): string {
    if IsSlugChar(c) then [c] else []
  }

  /** Everything `get_band_url` does to the name after joining its words
      with hyphens. */
  function SlugChars(s: string): string {
    FlatMap(FlatMap(LowerAscii(s), ExpandAmp), KeepSlugChar)
  }

  lemma {:induction false} KeptAreSlugChars(s: string)
    ensures forall i :: 0 <= i < |FlatMap(s, KeepSlugChar)| ==> IsSlugChar(FlatMap(s, KeepSlugChar)[i])
    decreases |s|
  {
    if s != [] {
      KeptAreSlugChars(s[1..]);
      assert FlatMap(s, KeepSlugChar) == KeepSlugChar(s[0]) + FlatMap(s[1..], KeepSlugChar);
    }
  }

  /** The name part of a band's lineup URL. */
  function Slug(name: string): (r: string)
    ensures forall i :: 0 <= i < |r| ==> IsSlugChar(r[i])
  {
    KeptAreSlugChars(FlatMap(LowerAscii(Join("-", Words(name))), ExpandAmp));
    SlugChars(Join("-", Words(name)))
  }

  lemma SlugCharsConcat(a: string, b: string)
    ensures SlugChars(a + b) == SlugChars(a) + SlugChars(b)
  {
    assert LowerAscii(a + b) == LowerAscii(a) + LowerAscii(b);
    FlatMapConcat(LowerAscii(a), LowerAscii(b), ExpandAmp);
    FlatMapConcat(FlatMap(LowerAscii(a), ExpandAmp), FlatMap(LowerAscii(b), ExpandAmp), KeepSlugChar);
  }

  lemma SlugCharsFixed(s: string)
    requires forall i :: 0 <= i < |s| ==> IsSlugChar(s[i])
    ensures SlugChars(s) == s
  {
    assert LowerAscii(s) == s;
    FlatMapFixed(s, ExpandAmp);
    FlatMapFixed(s, KeepSlugChar);
  }

  /** A name without whitespace is a single word (or none), so no hyphen
      is added. */
  lemma SlugOfWord(w: string)
    requires NoSpace(w)
    ensures Slug(w) == SlugChars(w)
  {
    if w != [] {
      WordsOfWord(w);
    }
  }

  /** Slugging a slug changes nothing. */
  lemma SlugIdempotent(name: string)
    ensures Slug(Slug(name)) == Slug(name)
  {
    var s := Slug(name);
    SlugOfWord(s);
    SlugCharsFixed(s);
  }

  lemma SlugCharsAmp()
    ensures SlugChars("&") == "und"
  {
    assert LowerAscii("&") == "&";
    assert FlatMap("&", ExpandAmp) == "und" by {
      assert "&"[1..] == [];
      assert FlatMap("&", ExpandAmp) == "und" + FlatMap([], ExpandAmp);
    }
    assert forall i :: 0 <= i < |"und"| ==> KeepSlugChar("und"[i]) == ["und"[i]];
    FlatMapFixed("und", KeepSlugChar);
  }

  /** `&` inside a word becomes `und`. */
  lemma SlugAmpersand(a: string, b: string)
    requires NoSpace(a) && NoSpace(b)
    ensures Slug(a + "&" + b) == Slug(a) + "und" + Slug(b)
  {
    var w := a + "&" + b;
    assert NoSpace(w) by {
      assert forall i :: 0 <= i < |w| ==> w[i] == '&' || w[i] in a || w[i] in b;
    }
    SlugOfWord(a);
    SlugOfWord(b);
    SlugOfWord(w);
    SlugCharsConcat(a + "&", b);
    SlugCharsConcat(a, "&");
    SlugCharsAmp();
  }

  /** A whitespace run between two parts that both hold a word becomes a
      single hyphen. */
  lemma SlugWhitespaceRun(a: string, ws: string, b: string)
    requires !AllSpace(a) && !AllSpace(b)
    requires ws != [] && AllSpace(ws)
    ensures Slug(a + ws + b) == Slug(a) + "-" + Slug(b)
  {
    WordsSplitAtSpace(a, ws, b);
    WordsEmpty(a);
    WordsEmpty(b);
    JoinConcat("-", Words(a), Words(b));
    SlugCharsConcat(Join("-", Words(a)) + "-", Join("-", Words(b)));
    SlugCharsConcat(Join("-", Words(a)), "-");
    assert SlugChars("-") == "-" by {
      SlugCharsFixed("-");
    }
  }

  /** Leading and trailing whitespace leave no hyphen behind. */
  lemma SlugIgnoresOuterWhitespace(lead: string, name: string, trail: string)
    requires AllSpace(lead) && AllSpace(trail)
    ensures Slug(lead + name + trail) == Slug(name)
  {
    WordsSkipSpace(lead, name + trail);
    assert lead + name + trail == lead + (name + trail);
    if trail != [] {
      WordsSplitAtSpace(name, trail, []);
      assert name + trail + [] == name + trail;
      assert Words([]) == [];
      assert Words(name + trail) == Words(name);
    } else {
      assert name + trail == name;
    }
    assert Words(lead + name + trail) == Words(name);
  }

  /** `get_band_url(name, check=False)`: the lineup page followed by the
      slug. */
  function BandUrl(name: string): (url: string)
    ensures |url| >= |LineupUrl| && url[..|LineupUrl|] == LineupUrl
    ensures forall i :: |LineupUrl| <= i < |url| ==> IsSlugChar(url[i])
  {
    LineupUrl + Slug(name)
  }

  /** The URL of a slug is the URL of the name it came from. */
  lemma BandUrlOfSlug(name: string)
    ensures BandUrl(Slug(name)) == BandUrl(name)
  {
    SlugIdempotent(name);
  }

  /** The URL a name resolves to when reachability is not checked. */
  function UncheckedUrl(name: string): Option<string> {
    Some(BandUrl(name))
  }

  /** `get_telegram_url_markdown`: a Markdown link when there is a URL,
      the bare name when the URL is `None` or empty. */
  function MarkdownLink(name: string, url: Option<string>): (line: string)
    ensures url.None? || url.value == "" ==> line == name
    ensures url.Some? && url.value != "" ==> line == "[" + name + "](" + url.value + ")"
  {
    if url.None? || url.value == "" then name
    else "[" + name + "](" + url.value + ")"
  }

  /** The link target a reader sees: nothing for `None` or an empty URL. */
  function Target(url: Option<string>): Option<string> {
    if url.None? || url.value == "" then None else url
  }

  /** A simplified reader of one line: `[label](target)`, with the first
      `]` closing the label, is a link, and anything else is plain text.
      It is not Telegram's Markdown parser, which also reads `_`, `*` and
      backquotes in a label as formatting marks. */
  function ReadLink(line: string): (string, Option<string>) {
    if |line| >= 2 && line[0] == '[' && line[|line| - 1] == ')' then
      var inner := line[1..|line| - 1];
      var k := FirstIndex(inner, ']');
      if k + 2 < |inner| && inner[k + 1] == '(' then (inner[..k], Some(inner[k + 2..]))
      else (line, None)
    else (line, None)
  }

  /** A name without brackets is recovered from its line together with
      the URL it links to. */
  lemma ReadMarkdownLink(name: string, url: Option<string>)
    requires '[' !in name && ']' !in name
    ensures ReadLink(MarkdownLink(name, url)) == (name, Target(url))
  {
    var line := MarkdownLink(name, url);
    if Target(url).Some? {
      var u := url.value;
      assert line == "[" + name + "](" + u + ")";
      assert line[0] == '[' && line[|line| - 1] == ')';
      var inner := line[1..|line| - 1];
      assert inner == name + [']'] + ("(" + u);
      FirstIndexAfter(name, ']', "(" + u);
      var k := FirstIndex(inner, ']');
      assert k == |name|;
      assert inner[k + 1] == '(';
      assert inner[..k] == name;
      assert inner[k + 2..] == u;
    } else {
      assert line == name;
      if |name| >= 2 {
        assert name[0] != '[';
      }
    }
  }

  /** The lines of a message: one link per band, in the given order. */
  function LinkLines(bands: seq<string>, urlOf: string -> Option<string>): (lines: seq<string>)
    ensures |lines| == |bands|
    ensures forall i :: 0 <= i < |bands| ==> lines[i] == MarkdownLink(bands[i], urlOf(bands[i]))
  {
    seq(|bands|, i requires 0 <= i < |bands| => MarkdownLink(bands[i], urlOf(bands[i])))
  }

  /** `get_sendable_bands_string`. */
  function SendableBands(bands: seq<string>, urlOf: string -> Option<string>): string {
    Join("\n", LinkLines(bands, urlOf))
  }

  /** A band and its URL can be shown on one line and read back. */
  predicate Displayable(name: string, url: Option<string>) {
    '\n' !in name && '[' !in name && ']' !in name && (url.Some? ==> '\n' !in url.value)
  }

  /** The message has exactly one line per band, and each line reads back
      as that band linked to its URL. */
  lemma SendableBandsLines(bands: seq<string>, urlOf: string -> Option<string>)
    requires bands != []
    requires forall i :: 0 <= i < |bands| ==> Displayable(bands[i], urlOf(bands[i]))
    ensures |Split(SendableBands(bands, urlOf), '\n')| == |bands|
    ensures forall i :: 0 <= i < |bands| ==>
      ReadLink(Split(SendableBands(bands, urlOf), '\n')[i]) == (bands[i], Target(urlOf(bands[i])))
  {
    var lines := LinkLines(bands, urlOf);
    forall i | 0 <= i < |bands|
      ensures '\n' !in lines[i]
      ensures ReadLink(lines[i]) == (bands[i], Target(urlOf(bands[i])))
    {
      ReadMarkdownLink(bands[i], urlOf(bands[i]));
    }
    assert "\n" == ['\n'];
    SplitJoin(lines, '\n');
  }

  /** Without the reachability check every band is linked to its lineup
      page. */
  lemma UncheckedLinks(bands: seq<string>)
    ensures forall i :: 0 <= i < |bands| ==>
      LinkLines(bands, UncheckedUrl)[i] == "[" + bands[i] + "](" + BandUrl(bands[i]) + ")"
  {
  }

  const NoBandsYet := "Bisher wurden keine Bands announced."
  const NoNewBands := "Es wurden keine neuen Bands announced."
  const NoCancelledBands := "Es wurden keine Bands abgesagt."

  /** The reply of the `bands`, `neu` and `abgesagt` commands: the links
      when there are bands, the command's fallback sentence otherwise. */
  function Reply(bands: seq<string>, fallback: string, urlOf: string -> Option<string>): (text: string)
    ensures bands == [] ==> text == fallback
  {
    if bands == [] then fallback else SendableBands(bands, urlOf)
  }

  /** A reply with bands reads back as those bands with their URLs, one
      line each, in the given order. */
  lemma ReplyReadsBack(bands: seq<string>, fallback: string, urlOf: string -> Option<string>)
    ensures bands != [] && (forall i :: 0 <= i < |bands| ==> Displayable(bands[i], urlOf(bands[i]))) ==>
      && |Split(Reply(bands, fallback, urlOf), '\n')| == |bands|
      && forall i :: 0 <= i < |bands| ==>
           ReadLink(Split(Reply(bands, fallback, urlOf), '\n')[i]) == (bands[i], Target(urlOf(bands[i])))
  {
    if bands != [] && (forall i :: 0 <= i < |bands| ==> Displayable(bands[i], urlOf(bands[i]))) {
      SendableBandsLines(bands, urlOf);
    }
  }
}

=== FILE: registry.dfy ===
/**
 * Finding subscribers in the working directory: `sched_new` applies the
 * unanchored pattern `bands_(.*)` to every file name and takes the first
 * match's group. A name without a match raises `IndexError`, which is
 * caught; an empty id is skipped.
 */
module Registry {
  import opened Wrappers
  import opened Text
  import opened Snapshot

  predicate PrefixAt(file: string, i: nat) {
    i + |FilePrefix| <= |file| && file[i..i + |FilePrefix|] == FilePrefix
  }

  /** The leftmost occurrence of `bands_` at or after `from`. */
  function FindPrefix(file: string, from: nat): (r: Option<nat>)
    ensures r.Some? ==> from <= r.value && PrefixAt(file, r.value)
    ensures r.Some? ==> forall j: nat :: from <= j < r.value ==> !PrefixAt(file, j)
    ensures r.None? ==> forall j: nat :: from <= j ==> !PrefixAt(file, j)
    decreases |file| - from
  {
    if from + |FilePrefix| > |file| then None
    else if PrefixAt(file, from) then Some(from)
    else FindPrefix(file, from + 1)
  }

  /** `uid` is what the first match of `bands_(.*)` captures, the match
      starting at `i`: `.` does not match a newline, so the capture ends at
      the first newline after the prefix, or at the end of the name. */
  predicate CapturedAt(file: string, i: nat, uid: string) {
    && PrefixAt(file, i)
    && (forall j: nat :: j < i ==> !PrefixAt(file, j))
    && i + |FilePrefix| + |uid| <= |file|
    && file[i + |FilePrefix|..i + |FilePrefix| + |uid|] == uid
    && '\n' !in uid
    && (i + |FilePrefix| + |uid| == |file| || file[i + |FilePrefix| + |uid|] == '\n')
  }

  /** `re.findall(r"bands_(.*)", file)[0]`, with `None` for the caught
      `IndexError`. */
  function ExtractUid(file: string): (r: Option<string>)
    ensures r.None? <==> forall j: nat :: !PrefixAt(file, j)
    ensures r.Some? ==> exists i: nat :: CapturedAt(file, i, r.value)
  {
    match FindPrefix(file, 0)
    case None => None
    case Some(i) =>
      var rest := file[i + |FilePrefix|..];
      var n := FirstIndex(rest, '\n');
      assert CapturedAt(file, i, rest[..n]);
      Some(rest[..n])
  }

  /** The subscriber a file stands for: a non-empty captured id. */
  function SubscriberOf(file: string): (r: Option<string>)
    ensures r.Some? <==> ExtractUid(file).Some? && ExtractUid(file).value != ""
    ensures r.Some? ==> r == ExtractUid(file)
  {
    match ExtractUid(file)
    case Some(uid) => if uid != "" then Some(uid) else None
    case None => None
  }

  /** The snapshot file of a subscriber names that subscriber. */
  lemma ExtractUidOfFileName(uid: string)
    requires '\n' !in uid
    ensures ExtractUid(FileName(uid)) == Some(uid)
  {
    var file := FileName(uid);
    assert file[..|FilePrefix|] == FilePrefix;
    assert PrefixAt(file, 0);
    assert FindPrefix(file, 0) == Some(0);
    assert file[0 + |FilePrefix|..] == uid;
    assert FirstIndex(uid, '\n') == |uid|;
    var rest := file[0 + |FilePrefix|..];
    assert rest[..FirstIndex(rest, '\n')] == uid;
  }

  /** A bare `bands_` captures the empty id and is skipped. */
  lemma BarePrefixSkipped()
    ensures ExtractUid(FilePrefix) == Some("")
    ensures SubscriberOf(FilePrefix) == None
  {
    ExtractUidOfFileName("");
    assert FileName("") == FilePrefix;
  }

  /** A name without `bands_` in it is skipped. */
  lemma OtherFilesSkipped(file: string)
    requires forall j: nat :: !PrefixAt(file, j)
    ensures SubscriberOf(file) == None
  {
  }

  /** The capture starts after the first `bands_`, so a name holding the
      prefix twice yields everything after the first one. */
  lemma FirstMatchWins(uid: string)
    requires '\n' !in uid
    ensures ExtractUid(FileName(FileName(uid))) == Some(FileName(uid))
  {
    assert '\n' !in FileName(uid);
    ExtractUidOfFileName(FileName(uid));
  }

  /** The pattern is not anchored: one character before the prefix does
      not change the id, so `xbands_u` names the same subscriber as
      `bands_u`. */
  lemma UnanchoredMatch(uid: string)
    requires '\n' !in uid
    ensures ExtractUid("x" + FileName(uid)) == Some(uid)
  {
    var file := "x" + FileName(uid);
    assert !PrefixAt(file, 0) by {
      assert file[0] == 'x';
    }
    assert file[1..1 + |FilePrefix|] == FilePrefix;
    assert PrefixAt(file, 1);
    assert FindPrefix(file, 0) == FindPrefix(file, 1) == Some(1);
    var rest := file[1 + |FilePrefix|..];
    assert rest == uid;
    assert FirstIndex(uid, '\n') == |uid|;
    assert rest[..FirstIndex(rest, '\n')] == uid;
  }
}

=== FILE: scheduler.dfy ===
/**
 * One run of `sched_new`: every file name in the directory listing that
 * names a subscriber gets `get_new`, and the subscriber is sent the new
 * bands when there are any. The listing is taken once, before the loop,
 * as `os.listdir` returns a list; the fetched lineup is one given list.
 */
module Scheduler {
  import opened Wrappers
  import opened Snapshot
  import opened Diff
  import opened Registry
  import opened Bot

  datatype Notification = Notification(uid: string, bands: set<string>)

  datatype SweepResult = SweepResult(dir: Directory, sent: seq<Notification>)

  /** The subscribers named by the files of a listing. */
  function Subscribers(listing: seq<string>): (subs: set<string>)
    ensures forall u :: u in subs <==> exists i :: 0 <= i < |listing| && SubscriberOf(listing[i]) == Some(u)
    decreases |listing|
  {
    if listing == [] then {}
    else
      var rest := Subscribers(listing[1..]);
      assert forall i :: 1 <= i < |listing| ==> listing[i] == listing[1..][i - 1];
      match SubscriberOf(listing[0])
      case Some(u) => {u} + rest
      case None => rest
  }

  /** The snapshot files of a set of subscribers. */
  function SnapshotFiles(subs: set<string>): set<string> {
    set u | u in subs :: FileName(u)
  }

  lemma SnapshotFilesAdd(uid: string, subs: set<string>)
    ensures SnapshotFiles({uid} + subs) == {FileName(uid)} + SnapshotFiles(subs)
  {
  }

  /** The uids that were sent something. */
  function Notified(sent: seq<Notification>): set<string> {
    set i | 0 <= i < |sent| :: sent[i].uid
  }

  /** `sched_new` over the files of `listing`, in order. */
  function Sweep(dir: Directory, listing: seq<string>, current: seq<string>): SweepResult
    decreases |listing|
  {
    if listing == [] then SweepResult(dir, [])
    else
      match SubscriberOf(listing[0])
      case None => Sweep(dir, listing[1..], current)
      case Some(uid) =>
        var step := GetNew(dir, uid, current);
        var rest := Sweep(step.dir, listing[1..], current);
        var sent := if step.delta.added != {} then [Notification(uid, step.delta.added)] else [];
        SweepResult(rest.dir, sent + rest.sent)
  }

  /** Every message of a sweep goes to a listed subscriber and holds
      some of the fetched bands. */
  lemma {:induction false} SweepSends(dir: Directory, listing: seq<string>, current: seq<string>)
    ensures var r := Sweep(dir, listing, current);
      forall i :: 0 <= i < |r.sent| ==>
        r.sent[i].uid in Subscribers(listing) && r.sent[i].bands != {} && r.sent[i].bands <= Elems(current)
    decreases |listing|
  {
    if listing != [] {
      var subs := Subscribers(listing[1..]);
      match SubscriberOf(listing[0])
      case None =>
        assert Subscribers(listing) == subs;
        SweepSends(dir, listing[1..], current);
        var r := Sweep(dir, listing, current);
        assert r == Sweep(dir, listing[1..], current);
        forall i | 0 <= i < |r.sent| ensures r.sent[i].uid in Subscribers(listing) {
          assert r.sent[i].uid in subs;
        }
      case Some(uid) =>
        assert Subscribers(listing) == {uid} + subs;
        var step := GetNew(dir, uid, current);
        SweepSends(step.dir, listing[1..], current);
        SweepStep(dir, listing, current, uid);
        var r := Sweep(dir, listing, current);
        var rest := Sweep(step.dir, listing[1..], current);
        var head := Announce(uid, step.delta.added);
        forall i | 0 <= i < |r.sent|
          ensures r.sent[i].uid in Subscribers(listing) && r.sent[i].bands != {} && r.sent[i].bands <= Elems(current)
        {
          if i >= |head| {
            assert r.sent[i] == rest.sent[i - |head|];
          }
        }
    }
  }

  /** After a sweep every listed subscriber's snapshot holds the fetched
      list, even when nothing was new. */
  lemma {:induction false} SweepWritesSnapshots(dir: Directory, listing: seq<string>, current: seq<string>)
    ensures var r := Sweep(dir, listing, current);
      forall u :: u in Subscribers(listing) ==> FileName(u) in r.dir && r.dir[FileName(u)] == Serialize(current)
    decreases |listing|
  {
    if listing != [] {
      var subs := Subscribers(listing[1..]);
      match SubscriberOf(listing[0])
      case None =>
        assert Subscribers(listing) == subs;
        SweepWritesSnapshots(dir, listing[1..], current);
      case Some(uid) =>
        assert Subscribers(listing) == {uid} + subs;
        var step := GetNew(dir, uid, current);
        assert step.dir == WriteSnapshot(dir, uid, current);
        SweepWritesSnapshots(step.dir, listing[1..], current);
        SweepKeys(step.dir, listing[1..], current);
        SweepKeepsOthers(step.dir, listing[1..], current);
        SweepStep(dir, listing, current, uid);
        assert FileName(uid) !in SnapshotFiles(subs) || uid in subs by {
          if FileName(uid) in SnapshotFiles(subs) {
            var u :| u in subs && FileName(u) == FileName(uid);
            FileNameInjective(u, uid);
          }
        }
    }
  }

  /** A sweep creates the snapshot files of the listed subscribers and no
      other file. */
  lemma {:induction false} SweepKeys(dir: Directory, listing: seq<string>, current: seq<string>)
    ensures Sweep(dir, listing, current).dir.Keys == dir.Keys + SnapshotFiles(Subscribers(listing))
    decreases |listing|
  {
    if listing != [] {
      var subs := Subscribers(listing[1..]);
      match SubscriberOf(listing[0])
      case None =>
        assert Subscribers(listing) == subs;
        SweepKeys(dir, listing[1..], current);
      case Some(uid) =>
        assert Subscribers(listing) == {uid} + subs;
        var step := GetNew(dir, uid, current);
        assert step.dir == WriteSnapshot(dir, uid, current);
        SweepKeys(step.dir, listing[1..], current);
        SweepStep(dir, listing, current, uid);
        SnapshotFilesAdd(uid, subs);
    }
  }

  /** A sweep leaves every file that is not a listed subscriber's snapshot
      as it was. */
  lemma {:induction false} SweepKeepsOthers(dir: Directory, listing: seq<string>, current: seq<string>)
    ensures var r := Sweep(dir, listing, current);
      forall k :: k in dir && k !in SnapshotFiles(Subscribers(listing)) ==> k in r.dir && r.dir[k] == dir[k]
    decreases |listing|
  {
    if listing != [] {
      var subs := Subscribers(listing[1..]);
      match SubscriberOf(listing[0])
      case None =>
        assert Subscribers(listing) == subs;
        SweepKeepsOthers(dir, listing[1..], current);
      case Some(uid) =>
        assert Subscribers(listing) == {uid} + subs;
        var step := GetNew(dir, uid, current);
        assert step.dir == WriteSnapshot(dir, uid, current);
        SweepKeepsOthers(step.dir, listing[1..], current);
        SweepStep(dir, listing, current, uid);
        SnapshotFilesAdd(uid, subs);
    }
  }

  /** The three facts together: the snapshots, the files, the rest. */
  lemma SweepWrites(dir: Directory, listing: seq<string>, current: seq<string>)
    ensures var r := Sweep(dir, listing, current);
      && (forall u :: u in Subscribers(listing) ==> FileName(u) in r.dir && r.dir[FileName(u)] == Serialize(current))
      && r.dir.Keys == dir.Keys + SnapshotFiles(Subscribers(listing))
      && (forall k :: k in dir && k !in SnapshotFiles(Subscribers(listing)) ==> r.dir[k] == dir[k])
  {
    SweepWritesSnapshots(dir, listing, current);
    SweepKeys(dir, listing, current);
    SweepKeepsOthers(dir, listing, current);
  }

  /** Every notification carries exactly the bands that are new against
      the subscriber's snapshot as it was before the sweep. */
  ghost predicate ReportsChanges(dir: Directory, current: seq<string>, sent: seq<Notification>) {
    forall i :: 0 <= i < |sent| ==> sent[i].bands == Changes(ReadSnapshot(dir, sent[i].uid), current).added
  }

  predicate DistinctUids(sent: seq<Notification>) {
    forall i, j :: 0 <= i < j < |sent| ==> sent[i].uid != sent[j].uid
  }

  lemma NotifiedConcat(a: seq<Notification>, b: seq<Notification>)
    ensures Notified(a + b) == Notified(a) + Notified(b)
  {
    forall u | u in Notified(a + b) ensures u in Notified(a) + Notified(b) {
      var i :| 0 <= i < |a + b| && (a + b)[i].uid == u;
      if i >= |a| {
        assert b[i - |a|].uid == u;
      }
    }
    forall u | u in Notified(a) + Notified(b) ensures u in Notified(a + b) {
      if u in Notified(a) {
        var i :| 0 <= i < |a| && a[i].uid == u;
        assert (a + b)[i].uid == u;
      } else {
        var i :| 0 <= i < |b| && b[i].uid == u;
        assert (a + b)[|a| + i].uid == u;
      }
    }
  }

  /** The messages a sweep sends for one subscriber. */
  function Announce(uid: string, added: set<string>): (sent: seq<Notification>)
    ensures Notified(sent) == if added == {} then {} else {uid}
  {
    if added != {} then
      var sent := [Notification(uid, added)];
      assert sent[0].uid == uid;
      sent
    else []
  }

  lemma SweepStep(dir: Directory, listing: seq<string>, current: seq<string>, uid: string)
    requires listing != [] && SubscriberOf(listing[0]) == Some(uid)
    ensures var step := GetNew(dir, uid, current);
      var rest := Sweep(step.dir, listing[1..], current);
      Sweep(dir, listing, current) == SweepResult(rest.dir, Announce(uid, step.delta.added) + rest.sent)
  {
  }

  /** After `get_new` with a storable list, the subscriber's own snapshot
      holds nothing new, and every other snapshot reads as before. */
  lemma StepFacts(dir: Directory, uid: string, current: seq<string>)
    requires Storable(current)
    ensures Changes(ReadSnapshot(GetNew(dir, uid, current).dir, uid), current).added == {}
    ensures forall v :: v != uid ==> ReadSnapshot(GetNew(dir, uid, current).dir, v) == ReadSnapshot(dir, v)
  {
    GetBandsReadBack(dir, uid, current);
    assert ReadSnapshot(GetNew(dir, uid, current).dir, uid) == current;
    NoChangesIffSameNames(current, current);
  }

  /** No subscriber with news is missed: every listed subscriber whose
      snapshot lacked some fetched band is messaged, whatever the lineup. */
  lemma {:induction false} SweepMissesNoChange(dir: Directory, listing: seq<string>, current: seq<string>)
    ensures forall u :: u in Subscribers(listing) && Changes(ReadSnapshot(dir, u), current).added != {} ==>
      u in Notified(Sweep(dir, listing, current).sent)
    decreases |listing|
  {
    if listing != [] {
      match SubscriberOf(listing[0])
      case None =>
        assert Subscribers(listing) == Subscribers(listing[1..]);
        SweepMissesNoChange(dir, listing[1..], current);
      case Some(uid) =>
        assert Subscribers(listing) == {uid} + Subscribers(listing[1..]);
        var step := GetNew(dir, uid, current);
        var rest := Sweep(step.dir, listing[1..], current);
        SweepStep(dir, listing, current, uid);
        SweepMissesNoChange(step.dir, listing[1..], current);
        GetBandsReadBack(dir, uid, current);
        assert step.delta == Changes(ReadSnapshot(dir, uid), current);
        NotifiedConcat(Announce(uid, step.delta.added), rest.sent);
    }
  }

  /** A sweep notifies exactly the subscribers whose snapshot lacked some
      fetched band. The converse half, that a notified subscriber had news,
      needs a storable lineup. */
  lemma {:induction false} SweepNotifiesChanged(dir: Directory, listing: seq<string>, current: seq<string>)
    requires Storable(current)
    ensures forall u :: u in Notified(Sweep(dir, listing, current).sent) <==>
      u in Subscribers(listing) && Changes(ReadSnapshot(dir, u), current).added != {}
    decreases |listing|
  {
    if listing != [] {
      match SubscriberOf(listing[0])
      case None =>
        SweepNotifiesChanged(dir, listing[1..], current);
      case Some(uid) =>
        var step := GetNew(dir, uid, current);
        var rest := Sweep(step.dir, listing[1..], current);
        SweepStep(dir, listing, current, uid);
        SweepNotifiesChanged(step.dir, listing[1..], current);
        StepFacts(dir, uid, current);
        NotifiedConcat(Announce(uid, step.delta.added), rest.sent);
    }
  }

  lemma ReportsChangesConcat(dir: Directory, current: seq<string>, a: seq<Notification>, b: seq<Notification>)
    requires ReportsChanges(dir, current, a) && ReportsChanges(dir, current, b)
    ensures ReportsChanges(dir, current, a + b)
  {
    forall i | 0 <= i < |a + b|
      ensures (a + b)[i].bands == Changes(ReadSnapshot(dir, (a + b)[i].uid), current).added
    {
      if i >= |a| {
        assert (a + b)[i] == b[i - |a|];
      }
    }
  }

  /** What a notification reports depends only on the snapshot of its
      own subscriber. */
  lemma ReportsChangesTransfer(d1: Directory, dir: Directory, current: seq<string>, sent: seq<Notification>)
    requires ReportsChanges(d1, current, sent)
    requires forall v :: v in Notified(sent) ==> ReadSnapshot(d1, v) == ReadSnapshot(dir, v)
    ensures ReportsChanges(dir, current, sent)
  {
    forall i | 0 <= i < |sent|
      ensures sent[i].bands == Changes(ReadSnapshot(dir, sent[i].uid), current).added
    {
      assert sent[i].uid in Notified(sent);
    }
  }

  lemma DistinctConcat(a: seq<Notification>, b: seq<Notification>)
    requires DistinctUids(a) && DistinctUids(b) && Notified(a) !! Notified(b)
    ensures DistinctUids(a + b)
  {
    forall i, j | 0 <= i < j < |a + b| ensures (a + b)[i].uid != (a + b)[j].uid {
      if i < |a| && j >= |a| {
        assert (a + b)[i].uid in Notified(a);
        assert (a + b)[j] == b[j - |a|];
        assert (a + b)[j].uid in Notified(b);
      } else if i >= |a| {
        assert (a + b)[i] == b[i - |a|] && (a + b)[j] == b[j - |a|];
      }
    }
  }

  /** One subscriber's announcement in front of the rest of a sweep keeps
      every notification faithful to the snapshots before the sweep. */
  lemma ReportsChangesStep(dir: Directory, d1: Directory, current: seq<string>, uid: string,
                           added: set<string>, rest: seq<Notification>)
    requires ReportsChanges(d1, current, rest) && uid !in Notified(rest)
    requires forall v :: v != uid ==> ReadSnapshot(d1, v) == ReadSnapshot(dir, v)
    requires added == Changes(ReadSnapshot(dir, uid), current).added
    ensures ReportsChanges(dir, current, Announce(uid, added) + rest)
  {
    ReportsChangesTransfer(d1, dir, current, rest);
    ReportsChangesConcat(dir, current, Announce(uid, added), rest);
  }

  /** Each notification carries exactly the bands its subscriber lacked
      before the sweep. */
  lemma {:induction false} SweepReportsChanges(dir: Directory, listing: seq<string>, current: seq<string>)
    requires Storable(current)
    ensures ReportsChanges(dir, current, Sweep(dir, listing, current).sent)
    decreases |listing|
  {
    if listing != [] {
      match SubscriberOf(listing[0])
      case None =>
        SweepReportsChanges(dir, listing[1..], current);
      case Some(uid) =>
        var step := GetNew(dir, uid, current);
        var rest := Sweep(step.dir, listing[1..], current);
        SweepStep(dir, listing, current, uid);
        SweepReportsChanges(step.dir, listing[1..], current);
        SweepNotifiesChanged(step.dir, listing[1..], current);
        StepFacts(dir, uid, current);
        assert step.delta == Changes(ReadSnapshot(dir, uid), current);
        ReportsChangesStep(dir, step.dir, current, uid, step.delta.added, rest.sent);
    }
  }

  /** No subscriber is notified twice in one sweep, even when several
      files name it. */
  lemma {:induction false} SweepNotifiesOnce(dir: Directory, listing: seq<string>, current: seq<string>)
    requires Storable(current)
    ensures DistinctUids(Sweep(dir, listing, current).sent)
    decreases |listing|
  {
    if listing != [] {
      match SubscriberOf(listing[0])
      case None =>
        SweepNotifiesOnce(dir, listing[1..], current);
      case Some(uid) =>
        var step := GetNew(dir, uid, current);
        var rest := Sweep(step.dir, listing[1..], current);
        SweepStep(dir, listing, current, uid);
        SweepNotifiesOnce(step.dir, listing[1..], current);
        SweepNotifiesChanged(step.dir, listing[1..], current);
        StepFacts(dir, uid, current);
        assert uid !in Notified(rest.sent);
        DistinctConcat(Announce(uid, step.delta.added), rest.sent);
    }
  }

  /** `get_new` on a snapshot that already holds the fetched list finds
      nothing and writes back the same content. */
  lemma UnchangedStep(dir: Directory, uid: string, current: seq<string>)
    requires Storable(current)
    requires FileName(uid) in dir && dir[FileName(uid)] == Serialize(current)
    ensures GetNew(dir, uid, current) == Refresh(Delta({}, {}), dir)
  {
    var step := GetNew(dir, uid, current);
    assert step.dir == dir[FileName(uid) := Serialize(current)];
    assert step.dir == dir;
    ParseSerialize(current);
    assert ReadSnapshot(dir, uid) == current;
    NoChangesIffSameNames(current, current);
  }

  /** When every subscriber's snapshot already holds the fetched list, a
      sweep sends nothing and rewrites every file with what it held. */
  lemma {:induction false} SweepQuiescent(dir: Directory, listing: seq<string>, current: seq<string>)
    requires Storable(current)
    requires forall u :: u in Subscribers(listing) ==> FileName(u) in dir && dir[FileName(u)] == Serialize(current)
    ensures Sweep(dir, listing, current) == SweepResult(dir, [])
    decreases |listing|
  {
    if listing != [] {
      var rest := Subscribers(listing[1..]);
      match SubscriberOf(listing[0])
      case None =>
        assert Subscribers(listing) == rest;
        SweepQuiescent(dir, listing[1..], current);
      case Some(uid) =>
        assert Subscribers(listing) == {uid} + rest;
        UnchangedStep(dir, uid, current);
        SweepQuiescent(dir, listing[1..], current);
        SweepStep(dir, listing, current, uid);
        assert Announce(uid, {}) == [];
    }
  }

  /** A subscriber id never holds a line break. */
  lemma SubscriberHasNoLineBreak(file: string)
    requires SubscriberOf(file).Some?
    ensures '\n' !in SubscriberOf(file).value
  {
    var i: nat :| CapturedAt(file, i, ExtractUid(file).value);
  }

  /** The next sweep, over a listing of the directory the first sweep left
      behind, sends nothing when the lineup has not changed, and leaves the
      directory as it is. */
  lemma SecondSweepSendsNothing(dir: Directory, listing: seq<string>, later: seq<string>, current: seq<string>)
    requires Storable(current)
    requires Elems(listing) == dir.Keys
    requires Elems(later) == Sweep(dir, listing, current).dir.Keys
    ensures var first := Sweep(dir, listing, current);
      Sweep(first.dir, later, current) == SweepResult(first.dir, [])
  {
    var first := Sweep(dir, listing, current);
    var subs := Subscribers(listing);
    SweepWrites(dir, listing, current);
    forall u | u in Subscribers(later)
      ensures u in subs
    {
      var i :| 0 <= i < |later| && SubscriberOf(later[i]) == Some(u);
      var f := later[i];
      assert f in Elems(later);
      if f in dir.Keys {
        assert f in Elems(listing);
        var j :| 0 <= j < |listing| && listing[j] == f;
      } else {
        var v :| v in subs && f == FileName(v);
        var k :| 0 <= k < |listing| && SubscriberOf(listing[k]) == Some(v);
        SubscriberHasNoLineBreak(listing[k]);
        ExtractUidOfFileName(v);
      }
    }
    SweepQuiescent(first.dir, later, current);
  }

  lemma ScenarioStep(uid: string, a: string, b: string, g: string)
    requires StorableName(a) && StorableName(b) && StorableName(g)
    requires b != "" && g != "" && g != a && g != b
    ensures var step := GetNew(map[FileName(uid) := a + "\n" + b], uid, [a, g]);
      && step.delta.added == {g}
      && step.dir == map[FileName(uid) := a + "\n" + g]
  {
    var dir := map[FileName(uid) := a + "\n" + b];
    var current := [a, g];
    ParseTwoLines(a, b);
    assert ReadSnapshot(dir, uid) == [a, b];
    var step := GetNew(dir, uid, current);
    assert g in step.delta.added;
    assert forall x :: x in step.delta.added ==> x == g;
    SerializeTwo(a, g);
    assert step.dir == WriteSnapshot(dir, uid, current);
    assert step.dir == dir[FileName(uid) := a + "\n" + g];
  }

  /** A subscriber holding `a` and `b` when the lineup becomes `a` and
      `g`: one message with `g` alone, and the snapshot now holds `a` and
      `g`. */
  lemma SweepScenario(uid: string, a: string, b: string, g: string)
    requires uid != "" && '\n' !in uid
    requires StorableName(a) && StorableName(b) && StorableName(g)
    requires b != "" && g != "" && g != a && g != b
    ensures var r := Sweep(map[FileName(uid) := a + "\n" + b], [FileName(uid)], [a, g]);
      && r.sent == [Notification(uid, {g})]
      && r.dir == map[FileName(uid) := a + "\n" + g]
  {
    var dir := map[FileName(uid) := a + "\n" + b];
    ExtractUidOfFileName(uid);
    assert SubscriberOf(FileName(uid)) == Some(uid);
    ScenarioStep(uid, a, b, g);
    SweepStep(dir, [FileName(uid)], [a, g], uid);
    assert [FileName(uid)][1..] == [];
  }

  /** Without a storable lineup one sweep can message a subscriber twice:
      `bands_u` and `xbands_u` both name `u`, the first step stores a name
      holding a line break as two lines, and the second step finds the
      name new again. */
  lemma LineBreakNameNotifiedTwice(uid: string, x: string, y: string)
    requires uid != "" && '\n' !in uid
    requires StorableName(x) && StorableName(y) && y != ""
    ensures var name := x + "\n" + y;
      Sweep(map[], [FileName(uid), "x" + FileName(uid)], [name]).sent
        == [Notification(uid, {name}), Notification(uid, {name})]
  {
    var name := x + "\n" + y;
    var listing := [FileName(uid), "x" + FileName(uid)];
    var current := [name];
    ExtractUidOfFileName(uid);
    UnanchoredMatch(uid);
    var step1 := GetNew(map[], uid, current);
    assert step1.delta.added == {name} by {
      assert ReadSnapshot(map[], uid) == [];
      AddedOfOne([], name);
    }
    SweepStep(map[], listing, current, uid);
    var step2 := GetNew(step1.dir, uid, current);
    assert step2.delta.added == {name} by {
      LineBreakNameReportedAgain(map[], uid, x, y);
    }
    assert listing[1..][0] == "x" + FileName(uid);
    SweepStep(step1.dir, listing[1..], current, uid);
    assert listing[1..][1..] == [];
  }
}

=== FILE: snapshot.dfy ===
/**
 * A subscriber's snapshot file. `write_bands` stores the band names joined
 * by newlines in a file named `bands_<uid>`; `get_old` reads it back with
 * `readlines()` and strips each line, and reads a file it cannot open or
 * read (any `OSError`, such as a missing file) as no bands.
 * The working directory is a map from file name to file content.
 */
module Snapshot {
  import opened Wrappers
  import opened Text

  type Directory = map<string, string>

  const FilePrefix := "bands_"

  /** The file that holds the snapshot of subscriber `uid`. */
  function FileName(uid: string): string {
    FilePrefix + uid
  }

  /** What `write_bands` puts in the file: `"\n".join(bands)`. */
  function Serialize(bands: seq<string>): string {
    Join("\n", bands)
  }

  /** What `get_old` makes of a file's content. */
  function Parse(content: string): seq<string> {
    StripEach(ReadLines(TranslateNewlines(content)))
  }

  /** `get_old` on a file that may be unreadable: `None` stands for every
      `OSError` on opening or reading, a missing file being the usual one. */
  function ReadFile(file: Option<string>): (bands: seq<string>)
    ensures file.None? ==> bands == []
    ensures file.Some? && file.value == "" ==> bands == []
  {
    match file
    case None => []
    case Some(content) => Parse(content)
  }

  /** A band name that survives a write and a read unchanged. */
  predicate StorableName(b: string) {
    '\n' !in b && '\r' !in b && IsStripped(b)
  }

  /** A list of names that survives a write and a read unchanged: the last
      name must not be empty, since an empty last line is no line at all. */
  predicate Storable(bands: seq<string>) {
    && (forall i :: 0 <= i < |bands| ==> StorableName(bands[i]))
    && (bands == [] || bands[|bands| - 1] != "")
  }

  lemma ReadLinesCons(x: string, rest: string)
    requires '\n' !in x
    ensures ReadLines(x + "\n" + rest) == [x + "\n"] + ReadLines(rest)
  {
    var s := x + "\n" + rest;
    FirstIndexAfter(x, '\n', rest);
    assert s[..|x| + 1] == x + "\n";
    assert s[|x| + 1..] == rest;
  }

  lemma ReadLinesLast(x: string)
    requires '\n' !in x && x != []
    ensures ReadLines(x) == [x]
  {
    assert FirstIndex(x, '\n') == |x|;
  }

  lemma StorableTail(bands: seq<string>)
    requires Storable(bands) && bands != []
    ensures Storable(bands[1..])
    ensures StorableName(bands[0])
  {
  }

  lemma {:induction false} LinesOfJoin(bands: seq<string>)
    requires Storable(bands)
    ensures StripEach(ReadLines(Join("\n", bands))) == bands
    decreases |bands|
  {
    if |bands| == 1 {
      var x := bands[0];
      assert Join("\n", bands) == x;
      ReadLinesLast(x);
      StripStripped(x);
    } else if |bands| > 1 {
      var x := bands[0];
      StorableTail(bands);
      var rest := Join("\n", bands[1..]);
      assert Join("\n", bands) == x + "\n" + rest;
      ReadLinesCons(x, rest);
      StripLineTerminator(x);
      LinesOfJoin(bands[1..]);
    }
  }

  /** Reading back what was written gives the same list, in order, with
      its duplicates. */
  lemma ParseSerialize(bands: seq<string>)
    requires Storable(bands)
    ensures Parse(Serialize(bands)) == bands
  {
    JoinAvoids("\n", bands, '\r');
    TranslateNewlinesPlain(Serialize(bands));
    LinesOfJoin(bands);
  }

  /** A trailing empty name is written as a final newline and read back as
      nothing. */
  lemma TrailingEmptyNameLost(bands: seq<string>)
    requires Storable(bands) && bands != []
    ensures Parse(Serialize(bands + [""])) == bands
  {
    JoinConcat("\n", bands, [""]);
    assert Serialize(bands + [""]) == Serialize(bands) + "\n";
    JoinAvoids("\n", bands, '\r');
    TranslateNewlinesPlain(Serialize(bands) + "\n");
    LinesOfTerminatedJoin(bands);
  }

  lemma {:induction false} LinesOfTerminatedJoin(bands: seq<string>)
    requires Storable(bands) && bands != []
    ensures StripEach(ReadLines(Join("\n", bands) + "\n")) == bands
    decreases |bands|
  {
    var x := bands[0];
    var tail := bands[1..];
    assert bands == [x] + tail;
    StorableTail(bands);
    StripLineTerminator(x);
    var rest := if tail == [] then "" else Join("\n", tail) + "\n";
    assert Join("\n", bands) + "\n" == x + "\n" + rest;
    ReadLinesCons(x, rest);
    var lines := ReadLines(rest);
    StripEachCons(x + "\n", lines);
    if tail != [] {
      LinesOfTerminatedJoin(tail);
    }
    assert StripEach(lines) == tail;
  }

  lemma StripEachCons(line: string, lines: seq<string>)
    ensures StripEach([line] + lines) == [Strip(line)] + StripEach(lines)
  {
    assert ([line] + lines)[1..] == lines;
  }

  lemma SerializeTwo(x: string, y: string)
    ensures Serialize([x, y]) == x + "\n" + y
  {
    assert [x, y][1..] == [y];
    assert Join("\n", [y]) == y;
  }

  lemma ParseTwoLines(x: string, y: string)
    requires StorableName(x) && StorableName(y) && y != ""
    ensures Parse(x + "\n" + y) == [x, y]
  {
    var names := [x, y];
    assert Storable(names);
    assert names[1..] == [y];
    assert Join("\n", [y]) == y;
    assert Join("\n", names) == names[0] + "\n" + Join("\n", names[1..]);
    ParseSerialize(names);
  }

  /** `get_old`: the stored list of subscriber `uid`, empty when there is
      no file. A file held in the directory is always readable. */
  function ReadSnapshot(dir: Directory, uid: string): (bands: seq<string>)
    ensures FileName(uid) !in dir ==> bands == []
  {
    ReadFile(if FileName(uid) in dir then Some(dir[FileName(uid)]) else None)
  }

  /** `write_bands`: creates or overwrites the file of `uid` and leaves
      every other file as it was. */
  function WriteSnapshot(dir: Directory, uid: string, bands: seq<string>): (d: Directory)
    ensures d.Keys == dir.Keys + {FileName(uid)}
    ensures d[FileName(uid)] == Serialize(bands)
    ensures forall k :: k in dir && k != FileName(uid) ==> d[k] == dir[k]
  {
    dir[FileName(uid) := Serialize(bands)]
  }

  lemma FileNameInjective(u: string, v: string)
    requires FileName(u) == FileName(v)
    ensures u == v
  {
    assert u == FileName(u)[|FilePrefix|..];
  }

  /** A written snapshot reads back as written. */
  lemma ReadAfterWrite(dir: Directory, uid: string, bands: seq<string>)
    requires Storable(bands)
    ensures ReadSnapshot(WriteSnapshot(dir, uid, bands), uid) == bands
  {
    ParseSerialize(bands);
  }

  /** Writing one subscriber's snapshot does not change what any other
      subscriber reads. */
  lemma WriteKeepsOthers(dir: Directory, uid: string, bands: seq<string>, other: string)
    requires other != uid
    ensures ReadSnapshot(WriteSnapshot(dir, uid, bands), other) == ReadSnapshot(dir, other)
  {
    if FileName(other) == FileName(uid) {
      FileNameInjective(other, uid);
    }
  }
}

=== FILE: text.dfy ===
/**
 * The pieces of Python's `str` behaviour the bot relies on, restricted to
 * ASCII: whitespace classification, `strip()`, `split()` with no argument,
 * `sep.join(...)`, `split(sep)`, and what a text-mode `readlines()` returns.
 */
module Text {

  /** `str.isspace()` on ASCII: tab, line feed, vertical tab, form feed,
      carriage return, the separators 0x1C-0x1F, and space. */
  predicate IsSpace(c: char) {
    9 <= c as int <= 13 || 28 <= c as int <= 32
  }

  predicate AllSpace(s: string) {
    forall i :: 0 <= i < |s| ==> IsSpace(s[i])
  }

  predicate NoSpace(s: string) {
    forall i :: 0 <= i < |s| ==> !IsSpace(s[i])
  }

  /** A string `strip()` leaves unchanged. */
  predicate IsStripped(s: string) {
    s == [] || (!IsSpace(s[0]) && !IsSpace(s[|s| - 1]))
  }

  // ---------------------------------------------------------------- strip

  function TrimStart(s: string): (r: string)
    ensures r == [] || !IsSpace(r[0])
  {
    if s != [] && IsSpace(s[0]) then TrimStart(s[1..]) else s
  }

  function TrimEnd(s: string): (r: string)
    ensures |r| <= |s| && r == s[..|r|]
    ensures r == [] || !IsSpace(r[|r| - 1])
  {
    if s != [] && IsSpace(s[|s| - 1]) then TrimEnd(s[..|s| - 1]) else s
  }

  /** Python's `s.strip()`: whitespace removed at both ends (see
      `StripIsMiddle` for what is kept). */
  function Strip(s: string): (r: string)
    ensures IsStripped(r)
  {
    TrimEnd(TrimStart(s))
  }

  /** `TrimStart` drops a whitespace prefix and keeps the rest. */
  lemma {:induction false} TrimStartDropsSpace(s: string)
    ensures var k := |s| - |TrimStart(s)|;
      0 <= k <= |s| && TrimStart(s) == s[k..] && AllSpace(s[..k])
    decreases |s|
  {
    if s != [] && IsSpace(s[0]) {
      TrimStartDropsSpace(s[1..]);
      var k := |s| - |TrimStart(s)|;
      assert s[1..][k - 1..] == s[k..];
      forall i | 0 <= i < k ensures IsSpace(s[i]) {
        if i > 0 {
          assert s[i] == s[1..][..k - 1][i - 1];
        }
      }
    }
  }

  /** `TrimEnd` drops a whitespace suffix and keeps the rest. */
  lemma {:induction false} TrimEndDropsSpace(s: string)
    ensures AllSpace(s[|TrimEnd(s)|..])
    decreases |s|
  {
    if s != [] && IsSpace(s[|s| - 1]) {
      var t := s[..|s| - 1];
      TrimEndDropsSpace(t);
      var n := |TrimEnd(s)|;
      forall i | n <= i < |s| ensures IsSpace(s[i]) {
        if i < |s| - 1 {
          assert s[i] == t[n..][i - n];
        }
      }
    }
  }

  /** `strip()` keeps a middle part of `s` and drops only whitespace on
      either side; since the part is itself stripped, it is the longest
      such part. */
  lemma StripIsMiddle(s: string)
    ensures exists i, j :: 0 <= i <= j <= |s| && Strip(s) == s[i..j] && AllSpace(s[..i]) && AllSpace(s[j..])
  {
    TrimStartDropsSpace(s);
    var i := |s| - |TrimStart(s)|;
    var t := TrimStart(s);
    TrimEndDropsSpace(t);
    var j := i + |TrimEnd(t)|;
    assert t[..|TrimEnd(t)|] == s[i..j];
    assert t[|TrimEnd(t)|..] == s[j..];
    assert Strip(s) == s[i..j];
  }

  lemma StripStripped(s: string)
    requires IsStripped(s)
    ensures Strip(s) == s
  {
  }

  /** A stripped line followed by its line terminator strips back to itself. */
  lemma StripLineTerminator(x: string)
    requires IsStripped(x)
    ensures Strip(x + "\n") == x
  {
    if x == [] {
      assert TrimStart("\n") == TrimStart([]);
    } else {
      assert TrimStart(x + "\n") == x + "\n";
      assert (x + "\n")[..|x + "\n"| - 1] == x;
      assert TrimEnd(x + "\n") == TrimEnd(x);
      assert TrimEnd(x) == x;
    }
  }

  // ---------------------------------------------------------------- split()

  /** Length of the word at the front of `s`. */
  function WordLen(s: string): (n: nat)
    requires s != [] && !IsSpace(s[0])
    ensures 1 <= n <= |s|
    ensures NoSpace(s[..n])
    ensures n == |s| || IsSpace(s[n])
  {
    if |s| == 1 || IsSpace(s[1]) then 1 else 1 + WordLen(s[1..])
  }

  /** Python's `s.split()` with no separator: the maximal runs of
      non-whitespace, so leading, trailing and repeated whitespace
      never produce an empty word. */
  function Words(s: string): (ws: seq<string>)
    ensures forall i :: 0 <= i < |ws| ==> ws[i] != [] && NoSpace(ws[i])
    decreases |s|
  {
    if s == [] then []
    else if IsSpace(s[0]) then Words(s[1..])
    else
      var n := WordLen(s);
      [s[..n]] + Words(s[n..])
  }

  lemma {:induction false} WordsEmpty(s: string)
    ensures Words(s) == [] <==> AllSpace(s)
    decreases |s|
  {
    if s != [] {
      if IsSpace(s[0]) {
        WordsEmpty(s[1..]);
        if AllSpace(s[1..]) {
          assert forall i :: 1 <= i < |s| ==> s[i] == s[1..][i - 1];
        }
      }
    }
  }

  lemma WordsOfWord(w: string)
    requires w != [] && NoSpace(w)
    ensures Words(w) == [w]
  {
    assert !IsSpace(w[0]);
    var n := WordLen(w);
    assert n == |w|;
    assert w[..n] == w;
    assert w[n..] == [];
  }

  lemma {:induction false} WordsSkipSpace(ws: string, b: string)
    requires AllSpace(ws)
    ensures Words(ws + b) == Words(b)
    decreases |ws|
  {
    if ws != [] {
      assert IsSpace((ws + b)[0]);
      assert (ws + b)[1..] == ws[1..] + b;
      WordsSkipSpace(ws[1..], b);
    } else {
      assert ws + b == b;
    }
  }

  lemma {:induction false} WordLenExtend(a: string, t: string)
    requires a != [] && !IsSpace(a[0])
    requires WordLen(a) < |a| || (t != [] && IsSpace(t[0]))
    ensures WordLen(a + t) == WordLen(a)
    decreases |a|
  {
    if |a| > 1 && !IsSpace(a[1]) {
      assert (a + t)[1..] == a[1..] + t;
      WordLenExtend(a[1..], t);
    }
  }

  /** A non-empty whitespace run separates the words on its two sides. */
  lemma {:induction false} WordsSplitAtSpace(a: string, ws: string, b: string)
    requires ws != [] && AllSpace(ws)
    ensures Words(a + ws + b) == Words(a) + Words(b)
    decreases |a|
  {
    var s := a + ws + b;
    if a == [] {
      assert s == ws + b;
      WordsSkipSpace(ws, b);
    } else if IsSpace(a[0]) {
      assert s[1..] == a[1..] + ws + b;
      WordsSplitAtSpace(a[1..], ws, b);
    } else {
      var n := WordLen(a);
      assert s == a + (ws + b);
      WordLenExtend(a, ws + b);
      assert s[..n] == a[..n];
      assert s[n..] == a[n..] + ws + b;
      WordsSplitAtSpace(a[n..], ws, b);
    }
  }

  // ---------------------------------------------------------------- join / split(sep)

  /** Python's `sep.join(parts)`. */
  function Join(sep: string, parts: seq<string>): string
  {
    if parts == [] then []
    else if |parts| == 1 then parts[0]
    else parts[0] + sep + Join(sep, parts[1..])
  }

  lemma {:induction false} JoinConcat(sep: string, xs: seq<string>, ys: seq<string>)
    requires xs != [] && ys != []
    ensures Join(sep, xs + ys) == Join(sep, xs) + sep + Join(sep, ys)
    decreases |xs|
  {
    if |xs| > 1 {
      assert (xs + ys)[1..] == xs[1..] + ys;
      JoinConcat(sep, xs[1..], ys);
    } else {
      assert (xs + ys)[1..] == ys;
    }
  }

  lemma {:induction false} JoinAvoids(sep: string, parts: seq<string>, c: char)
    requires c !in sep
    requires forall i :: 0 <= i < |parts| ==> c !in parts[i]
    ensures c !in Join(sep, parts)
    decreases |parts|
  {
    if |parts| > 1 {
      JoinAvoids(sep, parts[1..], c);
    }
  }

  /** Index of the first `c` in `s`, or `|s|` when there is none. */
  function FirstIndex(s: string, c: char): (i: nat)
    ensures i <= |s|
    ensures i < |s| ==> s[i] == c
    ensures c !in s[..i]
  {
    if s == [] || s[0] == c then 0 else 1 + FirstIndex(s[1..], c)
  }

  lemma {:induction false} FirstIndexAfter(x: string, c: char, t: string)
    requires c !in x
    ensures FirstIndex(x + [c] + t, c) == |x|
    decreases |x|
  {
    if x != [] {
      assert (x + [c] + t)[1..] == x[1..] + [c] + t;
      FirstIndexAfter(x[1..], c, t);
    }
  }

  /** Python's `s.split(sep)` for a one-character separator. */
  function Split(s: string, sep: char): (parts: seq<string>)
    ensures parts != []
    decreases |s|
  {
    var i := FirstIndex(s, sep);
    if i == |s| then [s] else [s[..i]] + Split(s[i + 1..], sep)
  }

  /** `split` undoes `join` when no part contains the separator. */
  lemma {:induction false} SplitJoin(parts: seq<string>, sep: char)
    requires parts != []
    requires forall i :: 0 <= i < |parts| ==> sep !in parts[i]
    ensures Split(Join([sep], parts), sep) == parts
    decreases |parts|
  {
    var s := Join([sep], parts);
    if |parts| == 1 {
      assert FirstIndex(s, sep) == |s|;
    } else {
      var x := parts[0];
      assert s == x + [sep] + Join([sep], parts[1..]);
      FirstIndexAfter(x, sep, Join([sep], parts[1..]));
      assert s[..|x|] == x;
      assert s[|x| + 1..] == Join([sep], parts[1..]);
      SplitJoin(parts[1..], sep);
    }
  }

  // ---------------------------------------------------------------- readlines()

  /** Universal-newline translation of a text-mode read: `\r\n` and a lone
      `\r` both become `\n`. */
  function TranslateNewlines(s: string): (r: string)
    ensures '\r' !in r
    decreases |s|
  {
    if s == [] then []
    else if s[0] == '\r' then
      "\n" + TranslateNewlines(if |s| > 1 && s[1] == '\n' then s[2..] else s[1..])
    else [s[0]] + TranslateNewlines(s[1..])
  }

  lemma {:induction false} TranslateNewlinesPlain(s: string)
    requires '\r' !in s
    ensures TranslateNewlines(s) == s
    decreases |s|
  {
    if s != [] {
      TranslateNewlinesPlain(s[1..]);
    }
  }

  /** `readlines()` on already translated text: every line keeps its
      `\n`, the last line may lack one, and empty text has no lines. */
  function ReadLines(s: string): (lines: seq<string>)
    decreases |s|
  {
    if s == [] then []
    else
      var i := FirstIndex(s, '\n');
      if i == |s| then [s] else [s[..i + 1]] + ReadLines(s[i + 1..])
  }

  /** Applies `strip()` to each line, as the list comprehension over
      `readlines()` does. */
  function StripEach(lines: seq<string>): (r: seq<string>)
    ensures |r| == |lines|
    ensures forall i :: 0 <= i < |lines| ==> r[i] == Strip(lines[i])
  {
    if lines == [] then [] else [Strip(lines[0])] + StripEach(lines[1..])
  }

  // ---------------------------------------------------------------- per-character rewriting

  /** Replaces every character by a string, like `str.replace` with a
      one-character pattern or `re.sub` with a one-character class. */
  function FlatMap(s: string, f: char -> string): string
    decreases |s|
  {
    if s == [] then [] else f(s[0]) + FlatMap(s[1..], f)
  }

  lemma {:induction false} FlatMapConcat(a: string, b: string, f: char -> string)
    ensures FlatMap(a + b, f) == FlatMap(a, f) + FlatMap(b, f)
    decreases |a|
  {
    if a != [] {
      assert (a + b)[1..] == a[1..] + b;
      FlatMapConcat(a[1..], b, f);
    } else {
      assert a + b == b;
    }
  }

  lemma {:induction false} FlatMapFixed(s: string, f: char -> string)
    requires forall i :: 0 <= i < |s| ==> f(s[i]) == [s[i]]
    ensures FlatMap(s, f) == s
    decreases |s|
  {
    if s != [] {
      FlatMapFixed(s[1..], f);
    }
  }
}

=== FILE: wrappers.dfy ===
/** The optional value used where the bot's Python code has `None` or a missing file. */
module Wrappers {

  datatype Option<+T> = None | Some(value: T)
}
